=== FILE: README.md ===
# PokeWeather forecast core, modelled in Dafny

PokeWeather is a pair of AWS Lambda functions that post Pokémon GO weather
forecasts to a Discord channel.

- **fetch-weather** runs on a schedule. For each catalog location it decides
  whether a fetch is due. It asks AccuWeather for the 12-hour hourly forecast and
  flattens the response into its present entries. Each entry becomes one flat
  record for DynamoDB.
- **post-discord** queries the records stored under a location's
  `locationID-YYYY-MM-DDTHH` key and keeps the first eight in the order the store
  returned them. It classifies each one into one of eight game conditions
  (Clear, Rain, Partly Cloudy, Cloudy, Windy, Snow, Fog, Unknown). It renders a
  four-line message with one glyph per hour.

The model covers the pure logic of both lambdas as immutable datatypes and
functions:

| file | module | contents |
|---|---|---|
| `wrappers.dfy` | `Wrappers` | `Option` and `Result` |
| `text.dfy` | `Text` | ECMAScript `trim` and splitting a text into lines |
| `timestamps.dfy` | `Timestamps` | `Date.prototype.toISOString` for four-digit years |
| `ingestion.dfy` | `Ingestion` | `fetchWeather.js`: catalog, pull hours, `hour`, the fetch gate, the normaliser, the record builder, one location's update |
| `weather.dfy` | `Weather` | `postDiscord.js`: the icon table, the glyph table and the classifier |
| `reporting.dfy` | `Reporting` | `postDiscord.js`: catalog, `itemKey`, the window cut in `getForecast`, the renderer, one location's report |
| `pipeline.dfy` | `Pipeline` | facts that tie the two lambdas together, plus a worked example |

The model follows the code as written:

- **Windy rule.** A known icon code reads `Windy` when wind speed plus gust is
  above 55. The rule uses the sum, not two separate thresholds. The per-code
  `wind` flag of `weatherMap` is never read (`Weather.WindFlagIgnored`).
- **No re-sort.** The window takes the first eight store items in the order the
  store returned them. The fetch time is the `requestTime` of the first returned
  item. Nothing is sorted by forecast time.
- **Two pulls a day.** The pull hours are `'08'`, `'16'` and `'24'`. An ISO
  timestamp's hour runs from `'00'` to `'23'`, so `'24'` never matches. A
  non-hourly location is fetched at 08 and 16 UTC only
  (`Ingestion.GateForIsoRun`).
- **Missing store attributes.** The record builder writes neither a
  `forecastHour` attribute nor the `locationRequestTime` key attribute that the
  reporter reads and queries. The reporter's items are therefore model inputs
  (`Reporting.StoredItem`) that carry those attributes. Nothing in the model
  derives them from the written records.

Parameters of the model stand for the parts that are not pure:

- the provider call, `fetch: string -> Result<Response, E>`;
- `uuid.v1()`, `newId: nat -> string`, which gives the id drawn for the i-th entry;
- the store lookup by key, `query: string -> Result<seq<StoredItem>, E>`;
- `new Date(t).toLocaleString()`, `localeString: string -> string`;
- the run time, `Timestamps.Instant`.

## Model

| member | source | states |
|---|---|---|
| `Ingestion.Hour` | lambdas/fetch-weather/fetchWeather.js:114-116 | `hour(t)` is at most two characters. It is exactly the characters at indices 11 and 12 when `t` has at least 13. It is the single character at index 11 when `t` has exactly 12, and empty when `t` has at most 11, because JavaScript `substring` clamps its indices. Lengths and indices count code points; see "## Left out". |
| `Ingestion.HourOfIsoString` | lambdas/fetch-weather/fetchWeather.js:114-116 | On a `toISOString` timestamp, `hour` is the zero-padded UTC hour of the run, and its digits denote that hour. |
| `Ingestion.HourIsNever24` | lambdas/fetch-weather/fetchWeather.js:54 | The pull hour `'24'` is never the hour of a `toISOString` timestamp. |
| `Ingestion.ShouldFetch` | lambdas/fetch-weather/fetchWeather.js:140 | The gate is open iff the location is hourly, or the request time has at least 13 characters and its characters 11-12 are one of `'08'`, `'16'`, `'24'`. A shorter time never opens the gate of a non-hourly location. `Ingestion.GateForIsoRun` restates this for ISO run times. |
| `Ingestion.GateForIsoRun` | lambdas/fetch-weather/fetchWeather.js:140 | On an ISO run time the gate opens iff the location is hourly or the UTC hour is 8 or 16. So `'24'` contributes nothing. |
| `Ingestion.CatalogSchedule` | lambdas/fetch-weather/fetchWeather.js:54-59 | Herndon (`hourly: true`) is fetched on every run. Reston is fetched iff the run's UTC hour is 8 or 16. |
| `Ingestion.GetForecastFromResponse` | lambdas/fetch-weather/fetchWeather.js:61-71 | The normaliser's output has one entry per non-null slot (length = slots minus null slots). Every output entry is the value of some slot. |
| `Ingestion.PresentSlotKept` | lambdas/fetch-weather/fetchWeather.js:61-71 | Every non-null slot's value appears in the output, at the position given by the number of non-null slots before it. |
| `Ingestion.RankIncreasing` | lambdas/fetch-weather/fetchWeather.js:62-70 | A non-null slot gets a smaller output position than every later slot. |
| `Ingestion.NormaliserKeepsOrder` | lambdas/fetch-weather/fetchWeather.js:62-70 | If value a sits in an earlier slot than value b, a precedes b in the output. |
| `Ingestion.EmptyForecastExactlyWhenAllNull` | lambdas/fetch-weather/fetchWeather.js:61-71 | The output is empty iff the response is empty or all of its slots are null. |
| `Ingestion.MakeHourlyForecast` | lambdas/fetch-weather/fetchWeather.js:73-87 | One record per entry, with the same length and order. Record i has the i-th generated id and the given location id, name and request time. It copies entry i's `DateTime`, `WeatherIcon`, `IsDaylight`, `Wind.Speed.Value` and `WindGust.Speed.Value`. |
| `Ingestion.RecordIdsDistinct` | lambdas/fetch-weather/fetchWeather.js:76 | With an id generator that never repeats, no two records of one batch share an id. |
| `Ingestion.UpdateForecastForLocation` | lambdas/fetch-weather/fetchWeather.js:136-162 | The update ends without a fetch iff the gate is closed. Otherwise it asks the provider for the location's id. It fails iff the provider fails. When it succeeds, it yields one record per non-null slot, each stamped with the location id, the location name and the run's request time. |
| `Ingestion.FetchedRecordCopiesSlot` | lambdas/fetch-weather/fetchWeather.js:147-149 | For every non-null provider slot, the fetched update holds a record at that slot's rank. The record carries the location's id and name and the run's request time. It copies the slot's `DateTime`, `WeatherIcon`, `IsDaylight`, `Wind.Speed.Value` and `WindGust.Speed.Value`. |
| `Ingestion.NotDueIgnoresProvider` | lambdas/fetch-weather/fetchWeather.js:140-145 | A location the gate rejects resolves the same way, with no records, whatever the provider would answer. |
| `Timestamps.ToIsoString` | lambdas/fetch-weather/fetchWeather.js:165 | `toISOString` output has 24 characters, separators at fixed positions and zero-padded fields. The hour is at indices 11-12. |
| `Timestamps.PadRoundTrip` | lambdas/fetch-weather/fetchWeather.js:165 | Reading back the zero-padded digits of a timestamp field gives the number that was written. |
| `Weather.PogoWeather` | lambdas/post-discord/postDiscord.js:117-126 | Definition: `pogoWeather` is the classification rule applied to the source's `weatherMap`. Its properties are stated by `Weather.UnknownExactlyWhenCodeMissing`, `Weather.WindyExactly` and `Weather.WindFlagIgnored`. |
| `Weather.Classify` | lambdas/post-discord/postDiscord.js:117-126 | An absent code gives Unknown whatever the wind. A known code with speed plus gust above 55 gives Windy. Any other known code gives its table text. |
| `Weather.KnownCodes` | lambdas/post-discord/postDiscord.js:76-115 | `weatherMap` knows exactly the codes 1-8, 11-26, 29 and 32-44. |
| `Weather.TableTexts` | lambdas/post-discord/postDiscord.js:76-115 | No table text is Unknown. Code 32 is the only code whose text is Windy. |
| `Weather.UnknownExactlyWhenCodeMissing` | lambdas/post-discord/postDiscord.js:117-121 | A reading classifies as Unknown iff its code is absent from `weatherMap`. |
| `Weather.WindyExactly` | lambdas/post-discord/postDiscord.js:117-126 | A reading classifies as Windy iff its code is known and either speed plus gust is above 55 or the code is 32. So code 32 is always Windy. |
| `Weather.WindFlagIgnored` | lambdas/post-discord/postDiscord.js:76-126 | Any table with the same texts and any `wind` flags classifies every reading identically. The flag is never read. |
| `Weather.LabelInjective` | lambdas/post-discord/postDiscord.js:65-74 | The eight condition texts are pairwise different. So keying the glyph table by condition is the same as keying it by text. |
| `Weather.GlyphForEveryCondition` | lambdas/post-discord/postDiscord.js:65-74 | Every condition, and so every classifier output, is a key of `pogoWeatherIcons`. Each glyph is one code point that is visible and is not a line break. |
| `Reporting.ItemKey` | lambdas/post-discord/postDiscord.js:128-131 | The key is the location id, then `-`, then the first min(13, length of t) characters of the request time. |
| `Reporting.ItemKeySameHour` | lambdas/post-discord/postDiscord.js:128-131 | For one location, two keys are equal iff the request times agree on their first 13 characters. |
| `Reporting.ItemKeyOfTruncated` | lambdas/post-discord/postDiscord.js:212 | The handler has already cut the time to 13 characters. Cutting it again in `itemKey` gives the same key. |
| `Reporting.GetForecast` | lambdas/post-discord/postDiscord.js:150-161 | Empty results give no window. Otherwise the fetch time is the first item's `requestTime` and the window has `min(8, n)` hours in store order. Hour i carries item i's `forecastHour` and its classification. |
| `Reporting.WindowIgnoresTail` | lambdas/post-discord/postDiscord.js:156 | Once eight items are present, items after them do not change the window. |
| `Reporting.FormattedLocation` | lambdas/post-discord/postDiscord.js:191-196 | The result is the plain name iff the link is missing or empty. Otherwise it splits into `[`, the name, `](<`, the link and `>)`. |
| `Reporting.FormattedRequestTime` | lambdas/post-discord/postDiscord.js:198-200 | The fetch-time line is the locale rendering followed by ` UTC`. |
| `Reporting.ReduceIsPaddedJoin` | lambdas/post-discord/postDiscord.js:203-206 | The `reduce` equals the accumulator, then the hours joined by two spaces, then one final two-space pad. |
| `Reporting.ForecastText` | lambdas/post-discord/postDiscord.js:202-208 | No hours give the empty line. Any non-empty line starts and ends with a visible character, because `trim` has removed the padding. Its content is stated by `Reporting.ForecastTextIsJoined` and `Reporting.ForecastTextPlain`. |
| `Reporting.ForecastTextEmpty` | lambdas/post-discord/postDiscord.js:202-208 | An empty hour list renders as an empty line. |
| `Reporting.ForecastTextIsJoined` | lambdas/post-discord/postDiscord.js:202-208 | A non-empty line is `hour:` + U+200B + glyph for each hour, joined by two spaces, with no trailing whitespace. Only leading blanks are removed. |
| `Reporting.ForecastTextPlain` | lambdas/post-discord/postDiscord.js:202-208 | When the first hour label does not start with a blank, the line is exactly the joined hours. |
| `Reporting.WeatherForecastText` | lambdas/post-discord/postDiscord.js:183-189 | The message is longer than 22 characters plus the length of the formatted location. That sum is the length of the header line with its line feed, so the message is longer than its header. It always ends in a line feed. Its line-by-line content is stated by `Reporting.MessageLines`. |
| `Reporting.MessageLines` | lambdas/post-discord/postDiscord.js:183-189 | When the parts hold no line feed, splitting the message at `\n` gives exactly: the header, the fetch-time line, the line for hours 0-3, the line for hours 4 and later, and an empty tail. So the message is four `\n`-terminated lines. |
| `Reporting.Report` | lambdas/post-discord/postDiscord.js:133-162 | The store is queried under `itemKey` of the location and the run's request time. No message is posted iff that query fails or returns no item. Otherwise the message renders the catalog entry, the first returned item's request time and the window. |
| `Text.TrimStart` | lambdas/post-discord/postDiscord.js:207 | The result is the longest suffix that does not start with an ECMAScript whitespace or line terminator. Everything removed is such a character. |
| `Text.Trim` | lambdas/post-discord/postDiscord.js:207 | `trim` never lengthens its input. The result neither starts nor ends with an ECMAScript whitespace or line terminator. A text made only of such characters trims to nothing. A text that already starts and ends with a visible character is returned unchanged. Which slice it is is stated by `Text.TrimIsMiddleSlice`. |
| `Text.TrimIsMiddleSlice` | lambdas/post-discord/postDiscord.js:207 | `trim` returns a slice `s[lo..hi]` of its input, where everything before `lo` and everything from `hi` on is an ECMAScript whitespace or line terminator. Together with the boundary clause of `Text.Trim`, both removed runs are maximal. |
| `Text.TrimEnd` | lambdas/post-discord/postDiscord.js:207 | The result is the longest prefix that does not end with an ECMAScript whitespace or line terminator. Everything removed is such a character. |
| `Pipeline.CatalogsAgree` | lambdas/fetch-weather/fetchWeather.js:56-59 | Both lambdas' catalogs have the same set of location ids, with the same name under each id. |
| `Pipeline.CatalogHasNoLineFeeds` | lambdas/post-discord/postDiscord.js:54-63 | Every reporting catalog entry has a link, and neither its name nor its link holds a line feed. |
| `Pipeline.CatalogMessagesHaveFourLines` | lambdas/post-discord/postDiscord.js:183-189 | The message of every catalog location splits at `\n` into five pieces, the last of them empty, so it is exactly four `\n`-terminated lines, provided the hour labels and the locale rendering hold no line feed. |
| `Pipeline.ReportKeyCarriesRunHour` | lambdas/post-discord/postDiscord.js:212 | The reporter's key for an ISO run time is the key of the full timestamp. It ends with the same two-digit UTC hour that the fetch gate reads. |
| `Pipeline.WorkedRunNotDue` | lambdas/fetch-weather/fetchWeather.js:140 | At 14:00 UTC the non-hourly Reston location is not fetched. |
| `Pipeline.WorkedWindow` | lambdas/post-discord/postDiscord.js:150-161 | Two built records, icon 1 with wind 5/5 and then icon 32 with no wind, are turned into store items. They window into Clear and then Windy, with the run's request time as fetch time. The record builder writes no `forecastHour`, so the hour labels "15" and "16" are supplied by the lemma, not read from the records. |
| `Pipeline.WorkedLine` | lambdas/post-discord/postDiscord.js:202-208 | That window renders as `15:` U+200B ☀, two spaces, `16:` U+200B 🎐. |

## Left out

- AWS service definitions for AccuWeather and the Discord webhook (fetchWeather.js:9-51, postDiscord.js:7-52): HTTP plumbing. Their results are parameters.
- DynamoDB `query` and `put`, `saveHourlyForecast`, `getForecastForLocation` and `postToDiscord`: external I/O. The query result and the provider response are inputs. Store writes do not affect an update's outcome, and the model does not track them.
- Promise fan-out in both handlers and in `updateForecastForLocation`, including the map callback at fetchWeather.js:150-152 that returns `undefined`, so its `Promise.all` resolves at once: this is concurrency orchestration. fetch-weather's handler reports all-or-nothing through its `callback` (fetchWeather.js:164-173). That callback is not modelled. The post-discord handler takes no callback.
- The `LastEvaluatedKey` truncation notice, console logging, `process.env` and the `__TESTING__` flag: logging and configuration only.
- `formattedRequestTime`'s `Date.toLocaleString`: locale-dependent, so it is the opaque parameter `localeString`.
- `uuid.v1()`: replaced by the parameter `newId`. Uniqueness is an assumption of `Ingestion.RecordIdsDistinct`, not something the model proves.
- The normaliser's `key === null || key === undefined` test: `Object.keys` only yields strings, so the test never removes a key. JavaScript's key-enumeration order is taken as given. The response is supplied already in that order.
- `Ingestion.Hour`, `Reporting.ItemKey`: strings are sequences of Unicode code points. JavaScript's `substring`, `slice` and `length` count UTF-16 code units, so the two differ on text outside the Basic Multilingual Plane. The handlers only pass `toISOString` output, which is ASCII, so the model agrees with the source on every input the handlers produce. On other text it does not.
- `Weather.GlyphForEveryCondition`: each glyph is one code point. In JavaScript, `.length` of the Windy glyph U+1F390 and the Fog glyph U+1F32B is 2, because each is a surrogate pair. The renderer never reads a glyph's length.
- `Timestamps.ToIsoString`: covers years 0-9999 only. The signed six-digit years that `toISOString` prints outside that range are not modelled.
- `Weather.Classify`: wind values are exact reals compared to 55. Floating-point rounding of the sum is not modelled. Neither is a missing wind attribute, which JavaScript would turn into `NaN`. Icon codes are integers, so property-name coercion of non-integer codes is not modelled.
- `Ingestion.MakeHourlyForecast`: every entry has `Wind.Speed` and `WindGust.Speed`. The `TypeError` the source would throw on an entry without them is not modelled.
- `Reporting.Report`: requires the location id to be in the catalog. The handler only passes catalog keys, and the source would throw on any other id.
- `Reporting.MessageLines`: only holds when the catalog name, the link, the locale rendering and the hour labels contain no line feed. Otherwise the message has more lines.

=== FILE: ingestion.dfy ===
/**
 The ingestion lambda (`lambdas/fetch-weather/fetchWeather.js`): decide whether a
 location is due this run, flatten the forecast provider's response into its
 present entries, and turn each entry into one flat hourly record for the store.
 The HTTP call, the store writes and the promise fan-out are outside the model;
 their results are parameters.
 */
module Ingestion {
  import opened Wrappers
  import opened Timestamps

  /** A catalog entry. `hourly` is `true` for a location fetched on every run;
      an entry that omits the flag reads as `false`. */
  datatype Location = Location(locationID: string, locationName: string, hourly: bool)

  /** The location catalog of the ingestion side. */
  const Locations: seq<Location> := [
    Location("2110989", "Herndon (Floris)", true),
    Location("341249", "Reston (RTC)", false)
  ]

  /** UTC hours (as `hour` prints them) at which a non-hourly location is fetched. */
  const ForecastTimes: seq<string> := ["08", "16", "24"]

  /** `Wind.Speed` and `WindGust.Speed` of a provider entry: `{ Value }`. */
  datatype Speed = Speed(Value: real)
  /** `Wind` and `WindGust` of a provider entry: `{ Speed }`. */
  datatype WindReading = WindReading(Speed: Speed)

  /** One hour of the provider's response, with the fields the record builder reads. */
  datatype RawEntry = RawEntry(DateTime: string, WeatherIcon: int, IsDaylight: bool, Wind: WindReading, WindGust: WindReading)

  /** The provider's response object as `Object.keys` enumerates it: each key with its
      value, `None` standing for `null` or `undefined`. */
  type Response = seq<(string, Option<RawEntry>)>

  /** The flat record written to the store. */
  datatype HourlyRecord = HourlyRecord(
    id: string,
    locationID: string,
    locationName: string,
    requestTime: string,
    dateTime: string,
    weatherIcon: int,
    isDaylight: bool,
    windSpeed: real,
    windGust: real)

  // ---------------------------------------------------------------- hour

  /** `time.substring(11, 13)`: JavaScript clamps both indices to the length. */
  function Hour(time: string): (h: string)
    ensures |h| <= 2
    ensures |time| >= 13 ==> |h| == 2 && h[0] == time[11] && h[1] == time[12]
    ensures |time| == 12 ==> h == time[11..]
    ensures |time| <= 11 ==> h == ""
  {
    var lo := if |time| < 11 then |time| else 11;
    var hi := if |time| < 13 then |time| else 13;
    time[lo..hi]
  }

  /** On a `toISOString` timestamp, `hour` is the two-digit UTC hour of the run. */
  lemma HourOfIsoString(t: Instant)
    requires Valid(t)
    ensures Hour(ToIsoString(t)) == Pad(t.hour, 2)
    ensures DigitsValue(Hour(ToIsoString(t))) == t.hour
  {
    var s := ToIsoString(t);
    assert s[11..13] == Pad(t.hour, 2);
    PadRoundTrip(t.hour, 2);
  }

  /** `'24'` is never the hour of a `toISOString` timestamp, which runs `'00'`-`'23'`. */
  lemma HourIsNever24(t: Instant)
    requires Valid(t)
    ensures Hour(ToIsoString(t)) != "24"
  {
    HourOfIsoString(t);
    assert DigitsValue("24") == 24 by {
      assert "24"[..1] == "2";
      assert "2"[..0] == "";
    }
  }

  // ---------------------------------------------------------------- fetch gate

  /** The fetch gate: hourly locations always, the others when the run's hour is a pull hour.
      Only characters 11 and 12 of the request time are read, and only when both exist. */
  function ShouldFetch(location: Location, requestTime: string): (due: bool)
    ensures due <==> location.hourly || (|requestTime| >= 13 && requestTime[11..13] in ForecastTimes)
  {
    location.hourly || Hour(requestTime) in ForecastTimes
  }

  /** In practice the gate opens for a non-hourly location at 08 and 16 UTC only:
      the third pull hour, `'24'`, never occurs. */
  lemma GateForIsoRun(location: Location, t: Instant)
    requires Valid(t)
    ensures ShouldFetch(location, ToIsoString(t)) <==> location.hourly || t.hour == 8 || t.hour == 16
  {
    var h := Hour(ToIsoString(t));
    GateByHour(location, ToIsoString(t));
    HourOfIsoString(t);
    HourIsNever24(t);
    PullHourDigits();
    if t.hour == 8 {
      assert h == "08";
    } else if t.hour == 16 {
      assert h == "16";
    }
  }

  /** The gate in terms of the hour it reads: one of the three pull-hour texts. */
  lemma GateByHour(location: Location, requestTime: string)
    ensures ShouldFetch(location, requestTime)
        <==> location.hourly || Hour(requestTime) == "08" || Hour(requestTime) == "16" || Hour(requestTime) == "24"
  {
  }

  /** The two reachable pull hours, written and read as two-digit numbers. */
  lemma PullHourDigits()
    ensures Pad(8, 2) == "08" && DigitsValue("08") == 8
    ensures Pad(16, 2) == "16" && DigitsValue("16") == 16
  {
    assert "08"[..1] == "0" && "0"[..0] == "";
    assert "16"[..1] == "1" && "1"[..0] == "";
  }

  // ---------------------------------------------------------------- normaliser

  /** How many slots of the response hold `null`/`undefined`. */
  function NullSlots(response: Response): (n: nat)
    ensures n <= |response|
  {
    if |response| == 0 then 0
    else (if response[0].1.None? then 1 else 0) + NullSlots(response[1..])
  }

  /** The position a present slot's value takes in the normalised forecast:
      the number of present slots before it. */
  function Rank(response: Response, i: nat): nat
    requires i <= |response|
  {
    i - NullSlots(response[..i])
  }

  /** `getForecastFromResponse`: the non-null values of the response, in key order. */
  function GetForecastFromResponse(response: Response): (forecast: seq<RawEntry>)
    ensures |forecast| == |response| - NullSlots(response)
    ensures forall e :: e in forecast ==> exists i :: 0 <= i < |response| && response[i].1 == Some(e)
  {
    if |response| == 0 then []
    else
      var rest := GetForecastFromResponse(response[1..]);
      match response[0].1
      case None => rest
      case Some(e) =>
        assert forall x :: x in rest ==> exists i :: 0 <= i < |response[1..]| && response[1..][i].1 == Some(x);
        [e] + rest
  }

  lemma {:induction false} NullSlotsAppend(a: Response, b: Response)
    ensures NullSlots(a + b) == NullSlots(a) + NullSlots(b)
  {
    if |a| > 0 {
      assert (a + b)[1..] == a[1..] + b;
      NullSlotsAppend(a[1..], b);
    } else {
      assert a + b == b;
    }
  }

  /** Every present slot lands in the normalised forecast, at its rank. */
  lemma {:induction false} PresentSlotKept(response: Response, i: nat)
    requires i < |response| && response[i].1.Some?
    ensures Rank(response, i) < |GetForecastFromResponse(response)|
    ensures GetForecastFromResponse(response)[Rank(response, i)] == response[i].1.value
  {
    var tail := response[1..];
    if i == 0 {
      assert response[..0] == [];
    } else {
      PresentSlotKept(tail, i - 1);
      assert response[..i] == [response[0]] + tail[..i - 1];
      assert ([response[0]] + tail[..i - 1])[1..] == tail[..i - 1];
    }
  }

  /** A present slot outranks every present slot before it, so the normaliser keeps
      the relative order of the values. */
  lemma RankIncreasing(response: Response, i: nat, j: nat)
    requires i < j < |response| && response[i].1.Some?
    ensures Rank(response, i) < Rank(response, j)
  {
    assert response[..j] == response[..i] + response[i..j];
    NullSlotsAppend(response[..i], response[i..j]);
    var mid := response[i..j];
    assert mid[0].1.Some?;
    assert NullSlots(mid) == NullSlots(mid[1..]);
  }

  /** If value `a` is in an earlier slot than value `b`, `a` precedes `b` in the forecast. */
  lemma NormaliserKeepsOrder(response: Response, i: nat, j: nat)
    requires i < j < |response| && response[i].1.Some? && response[j].1.Some?
    ensures var f := GetForecastFromResponse(response);
      exists p, q :: 0 <= p < q < |f| && f[p] == response[i].1.value && f[q] == response[j].1.value
  {
    PresentSlotKept(response, i);
    PresentSlotKept(response, j);
    RankIncreasing(response, i, j);
  }

  /** An empty or all-null response gives an empty forecast, and only such a response does. */
  lemma {:induction false} EmptyForecastExactlyWhenAllNull(response: Response)
    ensures GetForecastFromResponse(response) == [] <==> forall i :: 0 <= i < |response| ==> response[i].1.None?
  {
    if forall i :: 0 <= i < |response| ==> response[i].1.None? {
      AllNullCount(response);
    } else {
      var i :| 0 <= i < |response| && response[i].1.Some?;
      PresentSlotKept(response, i);
    }
  }

  lemma {:induction false} AllNullCount(response: Response)
    requires forall i :: 0 <= i < |response| ==> response[i].1.None?
    ensures NullSlots(response) == |response|
  {
    if |response| > 0 {
      assert response[0].1.None?;
      AllNullCount(response[1..]);
    }
  }

  // ---------------------------------------------------------------- record builder

  /** `makeHourlyForecast`: one record per entry, in order. `newId(i)` stands for the
      `uuid.v1()` drawn for the i-th entry. */
  function MakeHourlyForecast(locationID: string, locationName: string, requestTime: string,
                              forecast: seq<RawEntry>, newId: nat -> string): (records: seq<HourlyRecord>)
    ensures |records| == |forecast|
    ensures forall i :: 0 <= i < |records| ==>
      && records[i].id == newId(i)
      && records[i].locationID == locationID
      && records[i].locationName == locationName
      && records[i].requestTime == requestTime
    ensures forall i :: 0 <= i < |records| ==>
      && records[i].dateTime == forecast[i].DateTime
      && records[i].weatherIcon == forecast[i].WeatherIcon
      && records[i].isDaylight == forecast[i].IsDaylight
      && records[i].windSpeed == forecast[i].Wind.Speed.Value
      && records[i].windGust == forecast[i].WindGust.Speed.Value
  {
    seq(|forecast|, i requires 0 <= i < |forecast| =>
      var hourly := forecast[i];
      HourlyRecord(newId(i), locationID, locationName, requestTime, hourly.DateTime, hourly.WeatherIcon,
                   hourly.IsDaylight, hourly.Wind.Speed.Value, hourly.WindGust.Speed.Value))
  }

  /** With a generator that never repeats itself, no two records share an id. */
  lemma RecordIdsDistinct(locationID: string, locationName: string, requestTime: string,
                          forecast: seq<RawEntry>, newId: nat -> string, i: nat, j: nat)
    requires forall a: nat, b: nat :: a != b ==> newId(a) != newId(b)
    requires i < j < |forecast|
    ensures var records := MakeHourlyForecast(locationID, locationName, requestTime, forecast, newId);
      records[i].id != records[j].id
  {
  }

  // ---------------------------------------------------------------- one location's run

  /** How `updateForecastForLocation` ends: resolved without fetching, resolved after the
      fetch with the records handed to the store, or rejected because the fetch failed.
      `requested` is the location id the provider was asked for. */
  datatype Update =
    | NotDue
    | Fetched(requested: string, records: seq<HourlyRecord>)
    | FetchFailed(requested: string)

  /** `updateForecastForLocation`. `fetch` is the provider (`getForecastForLocation`
      before normalisation); the store writes do not affect the outcome. */
  function UpdateForecastForLocation<E>(location: Location, requestTime: string,
                                        fetch: string -> Result<Response, E>, newId: nat -> string): (u: Update)
    ensures u.NotDue? <==> !ShouldFetch(location, requestTime)
    ensures !u.NotDue? ==> u.requested == location.locationID
    ensures u.FetchFailed? <==> ShouldFetch(location, requestTime) && fetch(location.locationID).Failure?
    ensures u.Fetched? ==> |u.records| == |fetch(location.locationID).value| - NullSlots(fetch(location.locationID).value)
    ensures u.Fetched? ==> forall k :: 0 <= k < |u.records| ==>
      && u.records[k].locationID == location.locationID
      && u.records[k].locationName == location.locationName
      && u.records[k].requestTime == requestTime
  {
    if !ShouldFetch(location, requestTime) then NotDue
    else match fetch(location.locationID)
      case Failure(_) => FetchFailed(location.locationID)
      case Success(response) =>
        var forecast := GetForecastFromResponse(response);
        Fetched(location.locationID, MakeHourlyForecast(location.locationID, location.locationName, requestTime, forecast, newId))
  }

  /** The record a fetched location gets for a present provider slot sits at that slot's
      rank and carries the slot's forecast fields under the location's id and name. */
  lemma FetchedRecordCopiesSlot<E>(location: Location, requestTime: string,
                                   fetch: string -> Result<Response, E>, newId: nat -> string, i: nat)
    requires ShouldFetch(location, requestTime) && fetch(location.locationID).Success?
    requires i < |fetch(location.locationID).value| && fetch(location.locationID).value[i].1.Some?
    ensures var u := UpdateForecastForLocation(location, requestTime, fetch, newId);
      var response := fetch(location.locationID).value;
      var entry := response[i].1.value;
      var k := Rank(response, i);
      && u.Fetched?
      && k < |u.records|
      && u.records[k].locationID == location.locationID
      && u.records[k].locationName == location.locationName
      && u.records[k].requestTime == requestTime
      && u.records[k].dateTime == entry.DateTime
      && u.records[k].weatherIcon == entry.WeatherIcon
      && u.records[k].isDaylight == entry.IsDaylight
      && u.records[k].windSpeed == entry.Wind.Speed.Value
      && u.records[k].windGust == entry.WindGust.Speed.Value
  {
    PresentSlotKept(fetch(location.locationID).value, i);
  }

  /** A location the gate turns away resolves the same way whatever the provider would say:
      the provider is not consulted and no record is produced. */
  lemma NotDueIgnoresProvider<E>(location: Location, requestTime: string,
                                 fetch1: string -> Result<Response, E>, fetch2: string -> Result<Response, E>,
                                 newId: nat -> string)
    requires !ShouldFetch(location, requestTime)
    ensures UpdateForecastForLocation(location, requestTime, fetch1, newId)
         == UpdateForecastForLocation(location, requestTime, fetch2, newId) == NotDue
  {
  }

  /** On a `toISOString` run, the hourly location is always fetched and the other catalog
      location only at 08 and 16 UTC. */
  lemma CatalogSchedule(t: Instant)
    requires Valid(t)
    ensures ShouldFetch(Locations[0], ToIsoString(t))
    ensures ShouldFetch(Locations[1], ToIsoString(t)) <==> t.hour == 8 || t.hour == 16
  {
    GateForIsoRun(Locations[0], t);
    GateForIsoRun(Locations[1], t);
  }
}

=== FILE: pipeline.dfy ===
/**
 Facts that tie the two lambdas together: the shared location catalog, the
 store key of a run against the hour the fetch gate reads, and a worked
 ingestion-to-message example.
 */
module Pipeline {
  import opened Wrappers
  import opened Text
  import opened Timestamps
  import opened Weather
  import Ingestion
  import Reporting

  /** Both lambdas list the same locations under the same ids and names. */
  lemma CatalogsAgree()
    ensures (set l | l in Ingestion.Locations :: l.locationID) == Reporting.Locations.Keys
    ensures forall l :: l in Ingestion.Locations ==>
      l.locationID in Reporting.Locations && Reporting.Locations[l.locationID].locationName == l.locationName
  {
    var ids := set l | l in Ingestion.Locations :: l.locationID;
    assert Ingestion.Locations[0] in Ingestion.Locations;
    assert Ingestion.Locations[1] in Ingestion.Locations;
    assert ids == {"2110989", "341249"};
  }

  lemma RegionCovererHasNoLineFeed()
    ensures '\n' !in Reporting.RegionCoverer
  {
  }

  lemma LinkHasNoLineFeed(center: string, cells: string)
    requires '\n' !in center && '\n' !in cells
    ensures '\n' !in Reporting.RegionCoverer + center + cells
  {
    RegionCovererHasNoLineFeed();
    AbsentFromConcat('\n', Reporting.RegionCoverer, center);
    AbsentFromConcat('\n', Reporting.RegionCoverer + center, cells);
  }

  /** No catalog name or link holds a line feed. */
  lemma CatalogHasNoLineFeeds(locationID: string)
    requires locationID in Reporting.Locations
    ensures '\n' !in Reporting.Locations[locationID].locationName
    ensures Reporting.Locations[locationID].locationLink.Some?
    ensures '\n' !in Reporting.Locations[locationID].locationLink.value
  {
    if locationID == "2110989" {
      LinkHasNoLineFeed("?center=38.929707%2C-77.423269", "&zoom=13&cells=89b647");
    } else {
      LinkHasNoLineFeed("?center=38.918489%2C-77.354433", "&zoom=13&cells=89b649");
    }
  }

  /** So every catalog message is exactly four `\n`-terminated lines: five pieces at the
      line feeds, the last of them empty. */
  lemma CatalogMessagesHaveFourLines(locationID: string, requestTime: string,
                                     pogoForecast: seq<Reporting.HourForecast>, localeString: string -> string)
    requires locationID in Reporting.Locations
    requires '\n' !in localeString(requestTime)
    requires forall i :: 0 <= i < |pogoForecast| ==> '\n' !in pogoForecast[i].hour
    ensures var lines := Lines(Reporting.WeatherForecastText(Reporting.Locations[locationID], requestTime, pogoForecast, localeString));
      |lines| == 5 && lines[4] == ""
  {
    CatalogHasNoLineFeeds(locationID);
    Reporting.MessageLines(Reporting.Locations[locationID], requestTime, pogoForecast, localeString);
  }

  /** The reporting handler's key for a run (the ISO time cut to 13 characters) is the key
      of the full timestamp, and it ends in the same two-digit UTC hour the fetch gate reads. */
  lemma ReportKeyCarriesRunHour(locationID: string, t: Instant)
    requires Valid(t)
    ensures var iso := ToIsoString(t);
      && Reporting.ItemKey(locationID, iso[..13]) == Reporting.ItemKey(locationID, iso)
      && var key := Reporting.ItemKey(locationID, iso);
         key[|key| - 2..] == Ingestion.Hour(iso)
  {
    var iso := ToIsoString(t);
    Reporting.ItemKeyOfTruncated(locationID, iso);
    var key := Reporting.ItemKey(locationID, iso);
    assert key[|locationID| + 1..] == iso[..13];
    assert key[|key| - 2..] == key[|locationID| + 1..][11..13];
  }

  /** A worked run at 14:00 UTC: the Reston location is not due, its pull hours being
      08 and 16 (and the unreachable 24). */
  lemma WorkedRunNotDue()
    ensures !Ingestion.ShouldFetch(Ingestion.Locations[1], ToIsoString(Instant(2024, 1, 1, 14, 0, 0, 0)))
  {
    Ingestion.CatalogSchedule(Instant(2024, 1, 1, 14, 0, 0, 0));
  }

  /** Worked records: an icon-1 hour with wind 5/5 and an icon-32 hour with no wind,
      turned into store items, window into a `Clear` hour and a `Windy` hour with the run's
      request time as fetch time. The record builder writes no `forecastHour`, so the
      hour labels "15" and "16" are supplied here, not taken from the records. */
  lemma WorkedWindow(newId: nat -> string)
    ensures var entries := [
        Ingestion.RawEntry("2024-01-01T15:00:00-05:00", 1, true,
          Ingestion.WindReading(Ingestion.Speed(5.0)), Ingestion.WindReading(Ingestion.Speed(5.0))),
        Ingestion.RawEntry("2024-01-01T16:00:00-05:00", 32, true,
          Ingestion.WindReading(Ingestion.Speed(0.0)), Ingestion.WindReading(Ingestion.Speed(0.0)))];
      var records := Ingestion.MakeHourlyForecast("341249", "Reston (RTC)", "2024-01-01T14:00:00.000Z", entries, newId);
      var items := [
        Reporting.StoredItem("15", records[0].requestTime, records[0].weatherIcon, records[0].windSpeed, records[0].windGust),
        Reporting.StoredItem("16", records[1].requestTime, records[1].weatherIcon, records[1].windSpeed, records[1].windGust)];
      Reporting.GetForecast(items) == Some(Reporting.Window("2024-01-01T14:00:00.000Z",
        [Reporting.HourForecast("15", Clear), Reporting.HourForecast("16", Windy)]))
  {
    var entries := [
        Ingestion.RawEntry("2024-01-01T15:00:00-05:00", 1, true,
          Ingestion.WindReading(Ingestion.Speed(5.0)), Ingestion.WindReading(Ingestion.Speed(5.0))),
        Ingestion.RawEntry("2024-01-01T16:00:00-05:00", 32, true,
          Ingestion.WindReading(Ingestion.Speed(0.0)), Ingestion.WindReading(Ingestion.Speed(0.0)))];
    var records := Ingestion.MakeHourlyForecast("341249", "Reston (RTC)", "2024-01-01T14:00:00.000Z", entries, newId);
    var items := [
      Reporting.StoredItem("15", records[0].requestTime, records[0].weatherIcon, records[0].windSpeed, records[0].windGust),
      Reporting.StoredItem("16", records[1].requestTime, records[1].weatherIcon, records[1].windSpeed, records[1].windGust)];
    assert items[0] == Reporting.StoredItem("15", "2024-01-01T14:00:00.000Z", 1, 5.0, 5.0);
    assert items[1] == Reporting.StoredItem("16", "2024-01-01T14:00:00.000Z", 32, 0.0, 0.0);
    var w := Reporting.GetForecast(items).value;
    assert 1 in WeatherMap && WeatherMap[1].text == Clear;
    assert PogoWeather(1, 5.0, 5.0) == Clear;
    assert 32 in WeatherMap && WeatherMap[32].text == Windy;
    assert PogoWeather(32, 0.0, 0.0) == Windy;
    assert w.forecast == [Reporting.HourForecast("15", Clear), Reporting.HourForecast("16", Windy)];
  }

  /** The two cells of the worked window: label, colon, zero-width space, glyph. */
  lemma WorkedCells()
    ensures Reporting.Cell(Reporting.HourForecast("15", Clear)) == "15:\U{200B}\U{2600}"
    ensures Reporting.Cell(Reporting.HourForecast("16", Windy)) == "16:\U{200B}\U{1F390}"
  {
    assert PogoWeatherIcons[Clear] == "\U{2600}";
    assert PogoWeatherIcons[Windy] == "\U{1F390}";
  }

  /** The worked window's first hours line shows the sun glyph and then the wind chime. */
  lemma WorkedLine()
    ensures Reporting.ForecastText([Reporting.HourForecast("15", Clear), Reporting.HourForecast("16", Windy)])
         == "15:\U{200B}\U{2600}  16:\U{200B}\U{1F390}"
  {
    var hours := [Reporting.HourForecast("15", Clear), Reporting.HourForecast("16", Windy)];
    var first: string, second: string := "15:\U{200B}\U{2600}", "16:\U{200B}\U{1F390}";
    WorkedCells();
    assert hours[1..] == [hours[1]];
    assert Reporting.Joined([hours[1]]) == second;
    assert Reporting.Joined(hours) == first + "  " + second;
    Reporting.ForecastTextPlain(hours);
  }
}

=== FILE: reporting.dfy ===
/**
 The reporting lambda (`lambdas/post-discord/postDiscord.js`) for one location:
 the store key it queries, the eight-hour window it cuts from the items the store
 returns, and the Discord message it renders. The query, the post and the
 locale-dependent date rendering are outside the model; their results are parameters.
 */
module Reporting {
  import opened Wrappers
  import opened Text
  import opened Weather

  /** A catalog entry of the reporting side; `locationLink` may be missing. */
  datatype ReportLocation = ReportLocation(locationName: string, locationLink: Option<string>)

  /** The S2 region-coverer page every catalog link points into. */
  const RegionCoverer: string := "https://s2.sidewalklabs.com/regioncoverer/"

  /** The location catalog of the reporting side, keyed by location id. */
  const Locations: map<string, ReportLocation> := map[
    "2110989" := ReportLocation("Herndon (Floris)",
      Some(RegionCoverer + "?center=38.929707%2C-77.423269" + "&zoom=13&cells=89b647")),
    "341249" := ReportLocation("Reston (RTC)",
      Some(RegionCoverer + "?center=38.918489%2C-77.354433" + "&zoom=13&cells=89b649"))
  ]

  /** An item as the store query returns it, with the attributes the reporter reads. */
  datatype StoredItem = StoredItem(forecastHour: string, requestTime: string, weatherIcon: int, windSpeed: real, windGust: real)

  /** One displayed hour: `{ hour, weather }`. */
  datatype HourForecast = HourForecast(hour: string, weather: Condition)

  /** What `getForecast` hands its callback: the fetch time and the displayed hours. */
  datatype Window = Window(fetchTime: string, forecast: seq<HourForecast>)

  function Min(a: nat, b: nat): nat {
    if a < b then a else b
  }

  // ---------------------------------------------------------------- store key

  /** `itemKey`: the location id, a dash, and the first 13 characters of the request time
      (date and hour of an ISO timestamp). */
  function ItemKey(locationID: string, requestTime: string): (key: string)
    ensures |key| == |locationID| + 1 + Min(13, |requestTime|)
    ensures key[..|locationID|] == locationID && key[|locationID|] == '-'
    ensures key[|locationID| + 1..] == requestTime[..Min(13, |requestTime|)]
  {
    locationID + "-" + requestTime[..Min(13, |requestTime|)]
  }

  /** Keys of one location agree exactly when the request times agree on their first
      13 characters: one key per request hour. */
  lemma ItemKeySameHour(locationID: string, t1: string, t2: string)
    ensures ItemKey(locationID, t1) == ItemKey(locationID, t2)
        <==> t1[..Min(13, |t1|)] == t2[..Min(13, |t2|)]
  {
    var k1, k2 := ItemKey(locationID, t1), ItemKey(locationID, t2);
    if k1 == k2 {
      assert k1[|locationID| + 1..] == k2[|locationID| + 1..];
    }
  }

  /** The handler truncates the request time to 13 characters before `itemKey`
      truncates it again; the second cut changes nothing. */
  lemma ItemKeyOfTruncated(locationID: string, requestTime: string)
    ensures ItemKey(locationID, requestTime[..Min(13, |requestTime|)]) == ItemKey(locationID, requestTime)
  {
    ItemKeySameHour(locationID, requestTime[..Min(13, |requestTime|)], requestTime);
  }

  // ---------------------------------------------------------------- window

  /** The windowing inside `getForecast`: no message for an empty result; otherwise the
      fetch time of the first item and the first eight items in the store's order,
      each reduced to its hour label and condition. Nothing is re-sorted. */
  function GetForecast(items: seq<StoredItem>): (w: Option<Window>)
    ensures w.None? <==> |items| == 0
    ensures w.Some? ==> w.value.fetchTime == items[0].requestTime
    ensures w.Some? ==> |w.value.forecast| == Min(8, |items|)
    ensures w.Some? ==> forall i :: 0 <= i < |w.value.forecast| ==>
      && w.value.forecast[i].hour == items[i].forecastHour
      && w.value.forecast[i].weather == PogoWeather(items[i].weatherIcon, items[i].windSpeed, items[i].windGust)
  {
    if |items| == 0 then None
    else
      var shown := items[..Min(8, |items|)];
      Some(Window(items[0].requestTime,
        seq(|shown|, i requires 0 <= i < |shown| =>
          HourForecast(shown[i].forecastHour, PogoWeather(shown[i].weatherIcon, shown[i].windSpeed, shown[i].windGust)))))
  }

  /** Items past the eighth do not change the window. */
  lemma WindowIgnoresTail(items: seq<StoredItem>, more: seq<StoredItem>)
    requires |items| >= 8
    ensures GetForecast(items + more) == GetForecast(items)
  {
    var a, b := GetForecast(items + more).value, GetForecast(items).value;
    assert a.forecast == b.forecast;
  }

  // ---------------------------------------------------------------- renderer

  /** `formattedLocation`: the plain name when the link is missing or empty, otherwise
      the Markdown link `[name](<link>)`. */
  function FormattedLocation(location: ReportLocation): (text: string)
    ensures text == location.locationName
        <==> location.locationLink.None? || location.locationLink.value == ""
    ensures location.locationLink.Some? && location.locationLink.value != "" ==>
      var name, link := location.locationName, location.locationLink.value;
      && |text| == |name| + |link| + 6
      && text[..1] == "[" && text[1..|name| + 1] == name && text[|name| + 1..|name| + 4] == "](<"
      && text[|name| + 4..|text| - 2] == link && text[|text| - 2..] == ">)"
  {
    match location.locationLink
    case None => location.locationName
    case Some(link) =>
      if link == "" then location.locationName
      else
        var name := location.locationName;
        var text := "[" + name + "](<" + link + ">)";
        assert text[1..|name| + 1] == name;
        assert text[|name| + 1..|name| + 4] == "](<";
        assert text[|name| + 4..|text| - 2] == link;
        text
  }

  /** `formattedRequestTime`: `localeString` stands for `new Date(t).toLocaleString()`. */
  function FormattedRequestTime(requestTime: string, localeString: string -> string): (text: string)
    ensures |text| == |localeString(requestTime)| + 4
    ensures text[..|localeString(requestTime)|] == localeString(requestTime)
    ensures text[|localeString(requestTime)|..] == " UTC"
  {
    localeString(requestTime) + " UTC"
  }

  /** The zero-width space between an hour label and its glyph. */
  const ZeroWidthSpace: string := "\U{200B}"

  /** One rendered hour without its trailing padding: label, colon, zero-width space, glyph. */
  function Cell(h: HourForecast): string {
    GlyphForEveryCondition(h.weather);
    h.hour + ":" + ZeroWidthSpace + PogoWeatherIcons[h.weather]
  }

  /** The `reduce` in `forecastText`: every hour appended with two spaces of padding. */
  function Reduce(acc: string, hours: seq<HourForecast>): string
    decreases |hours|
  {
    if |hours| == 0 then acc else Reduce(acc + Cell(hours[0]) + "  ", hours[1..])
  }

  /** `forecastText`: the padded hours, trimmed. No hours give the empty line; any line
      starts and ends with a visible character. */
  function ForecastText(hours: seq<HourForecast>): (text: string)
    ensures |hours| == 0 ==> text == ""
    ensures text == [] || (!IsTrimmable(text[0]) && !IsTrimmable(text[|text| - 1]))
  {
    Trim(Reduce("", hours))
  }

  /** Reference rendering of a line: the cells separated by two spaces, nothing after the last. */
  function Joined(hours: seq<HourForecast>): (text: string)
    ensures |hours| > 0 ==> |text| > 0 && !IsTrimmable(text[|text| - 1]) && text[|text| - 1] != '\n'
  {
    GlyphForEveryCondition(if |hours| == 0 then Unknown else hours[|hours| - 1].weather);
    if |hours| == 0 then ""
    else if |hours| == 1 then Cell(hours[0])
    else Cell(hours[0]) + "  " + Joined(hours[1..])
  }

  /** Folding the padded cells is the joined line plus one final padding. */
  lemma {:induction false} ReduceIsPaddedJoin(acc: string, hours: seq<HourForecast>)
    requires |hours| > 0
    ensures Reduce(acc, hours) == acc + Joined(hours) + "  "
    decreases |hours|
  {
    if |hours| > 1 {
      ReduceIsPaddedJoin(acc + Cell(hours[0]) + "  ", hours[1..]);
    }
  }

  lemma ForecastTextIsTrimmedPaddedJoin(hours: seq<HourForecast>)
    requires |hours| > 0
    ensures ForecastText(hours) == Trim(Joined(hours) + "  ")
  {
    ReduceFromEmpty(hours);
  }

  lemma ReduceFromEmpty(hours: seq<HourForecast>)
    requires |hours| > 0
    ensures Reduce("", hours) == Joined(hours) + "  "
  {
    ReduceIsPaddedJoin("", hours);
    assert "" + Joined(hours) + "  " == Joined(hours) + "  ";
  }

  /** An empty hour list renders as an empty line. */
  lemma ForecastTextEmpty()
    ensures ForecastText([]) == ""
  {
  }

  /** A non-empty line is the joined cells with leading blanks removed: two spaces between
      hours and no trailing whitespace. */
  lemma {:induction false} ForecastTextIsJoined(hours: seq<HourForecast>)
    requires |hours| > 0
    ensures ForecastText(hours) == TrimStart(Joined(hours))
  {
    ForecastTextIsTrimmedPaddedJoin(hours);
    TrimOfSpacePadded(Joined(hours));
  }

  /** When the first hour label does not begin with a blank, the line is exactly the
      joined cells. */
  lemma {:induction false} ForecastTextPlain(hours: seq<HourForecast>)
    requires |hours| > 0
    requires hours[0].hour == "" || !IsTrimmable(hours[0].hour[0])
    ensures ForecastText(hours) == Joined(hours)
  {
    JoinedStartsVisible(hours);
    ForecastTextIsJoined(hours);
    TrimStartKeeps(Joined(hours));
  }

  /** A rendered line starts with the first hour's label, or with its colon when the
      label is empty; so it starts visibly when the label does. */
  lemma JoinedStartsVisible(hours: seq<HourForecast>)
    requires |hours| > 0
    requires hours[0].hour == "" || !IsTrimmable(hours[0].hour[0])
    ensures !IsTrimmable(Joined(hours)[0])
  {
    var c := Cell(hours[0]);
    assert c[0] == if hours[0].hour == "" then ':' else hours[0].hour[0];
  }

  /** Hour labels without line feeds give a rendered line without line feeds. */
  lemma {:induction false} JoinedHasNoLineFeed(hours: seq<HourForecast>)
    requires forall i :: 0 <= i < |hours| ==> '\n' !in hours[i].hour
    ensures '\n' !in Joined(hours)
  {
    if |hours| > 0 {
      GlyphForEveryCondition(hours[0].weather);
      var c := Cell(hours[0]);
      assert '\n' !in c;
      if |hours| > 1 {
        JoinedHasNoLineFeed(hours[1..]);
      }
    }
  }

  lemma {:induction false} ForecastTextHasNoLineFeed(hours: seq<HourForecast>)
    requires forall i :: 0 <= i < |hours| ==> '\n' !in hours[i].hour
    ensures '\n' !in ForecastText(hours)
  {
    if |hours| > 0 {
      ReduceFromEmpty(hours);
      JoinedHasNoLineFeed(hours);
      TrimKeepsAbsence(Joined(hours) + "  ", '\n');
    }
  }

  /** `weatherForecastText`: header, fetch time, hours 0-3, hours 4 onward, each line
      ending in `\n`. */
  function WeatherForecastText(location: ReportLocation, requestTime: string,
                               pogoForecast: seq<HourForecast>, localeString: string -> string): (m: string)
    ensures |m| > 22 + |FormattedLocation(location)| && m[|m| - 1] == '\n'
  {
    var header := "Weather forecast for " + FormattedLocation(location) + "\n";
    var forecastTime := FormattedRequestTime(requestTime, localeString) + "\n";
    var forecastText1 := ForecastText(pogoForecast[..Min(4, |pogoForecast|)]) + "\n";
    var forecastText2 := ForecastText(pogoForecast[Min(4, |pogoForecast|)..]) + "\n";
    header + forecastTime + forecastText1 + forecastText2
  }

  /** The header line has no line feed when the catalog entry has none. */
  lemma HeaderHasNoLineFeed(location: ReportLocation)
    requires '\n' !in location.locationName
    requires location.locationLink.Some? ==> '\n' !in location.locationLink.value
    ensures '\n' !in "Weather forecast for " + FormattedLocation(location)
  {
    var f := FormattedLocation(location);
    if f != location.locationName {
      var name, link := location.locationName, location.locationLink.value;
      forall k | 0 <= k < |f| ensures f[k] != '\n' {
        if 1 <= k < |name| + 1 {
          assert f[k] == f[1..|name| + 1][k - 1];
        } else if |name| + 4 <= k < |f| - 2 {
          assert f[k] == f[|name| + 4..|f| - 2][k - |name| - 4];
        } else if k == 0 {
          assert f[k] == f[..1][0];
        } else if |f| - 2 <= k {
          assert f[k] == f[|f| - 2..][k - |f| + 2];
        } else {
          assert f[k] == f[|name| + 1..|name| + 4][k - |name| - 1];
        }
      }
    }
    var h := "Weather forecast for " + f;
    forall k | 0 <= k < |h| ensures h[k] != '\n' {
      if k >= 21 {
        assert h[k] == f[k - 21];
      }
    }
  }

  /** The fetch-time line has no line feed when the locale rendering has none. */
  lemma TimeLineHasNoLineFeed(requestTime: string, localeString: string -> string)
    requires '\n' !in localeString(requestTime)
    ensures '\n' !in FormattedRequestTime(requestTime, localeString)
  {
    var l := localeString(requestTime);
    var t := FormattedRequestTime(requestTime, localeString);
    forall k | 0 <= k < |t| ensures t[k] != '\n' {
      if k < |l| {
        assert t[k] == t[..|l|][k];
      } else {
        assert t[k] == t[|l|..][k - |l|];
      }
    }
  }

  /** Split at its line feeds, the message is exactly four terminated lines: the header,
      the fetch time, the first four hours and the rest. */
  lemma MessageLines(location: ReportLocation, requestTime: string,
                     pogoForecast: seq<HourForecast>, localeString: string -> string)
    requires '\n' !in location.locationName
    requires location.locationLink.Some? ==> '\n' !in location.locationLink.value
    requires '\n' !in localeString(requestTime)
    requires forall i :: 0 <= i < |pogoForecast| ==> '\n' !in pogoForecast[i].hour
    ensures var split := Min(4, |pogoForecast|);
      Lines(WeatherForecastText(location, requestTime, pogoForecast, localeString))
        == ["Weather forecast for " + FormattedLocation(location),
            localeString(requestTime) + " UTC",
            ForecastText(pogoForecast[..split]),
            ForecastText(pogoForecast[split..]),
            ""]
  {
    var split := Min(4, |pogoForecast|);
    var first, rest := pogoForecast[..split], pogoForecast[split..];
    forall i | 0 <= i < |first| ensures '\n' !in first[i].hour {
      assert first[i] == pogoForecast[i];
    }
    forall i | 0 <= i < |rest| ensures '\n' !in rest[i].hour {
      assert rest[i] == pogoForecast[split + i];
    }
    HeaderHasNoLineFeed(location);
    TimeLineHasNoLineFeed(requestTime, localeString);
    ForecastTextHasNoLineFeed(first);
    ForecastTextHasNoLineFeed(rest);
    LinesOfFour("Weather forecast for " + FormattedLocation(location), FormattedRequestTime(requestTime, localeString),
                ForecastText(first), ForecastText(rest));
  }

  // ---------------------------------------------------------------- one location's report

  /** What one location's run of the handler does: the store key it queried and the
      message it posts, if any. */
  datatype Posting = Posting(requested: string, message: Option<string>)

  /** One location's run of the handler: it queries the store under `itemKey` of the
      location and the run's request time; the query either fails (logged, no message),
      returns no item (logged, no message), or returns items that become the message
      posted to Discord. `query` is the store lookup by key. */
  function Report<E>(locationID: string, requestTime: string, query: string -> Result<seq<StoredItem>, E>,
                     localeString: string -> string): (p: Posting)
    requires locationID in Locations
    ensures p.requested == ItemKey(locationID, requestTime)
    ensures p.message.None? <==> query(p.requested).Failure? || |query(p.requested).value| == 0
    ensures p.message.Some? ==>
      var items := query(p.requested).value;
      p.message.value == WeatherForecastText(Locations[locationID], items[0].requestTime,
                                             GetForecast(items).value.forecast, localeString)
  {
    var key := ItemKey(locationID, requestTime);
    match query(key)
    case Failure(_) => Posting(key, None)
    case Success(items) =>
      match GetForecast(items)
      case None => Posting(key, None)
      case Some(w) => Posting(key, Some(WeatherForecastText(Locations[locationID], w.fetchTime, w.forecast, localeString)))
  }
}

=== FILE: text.dfy ===
/**
 Plain string helpers the renderer relies on: ECMAScript's `String.prototype.trim`
 and splitting a message into its `\n`-separated lines.
 */
module Text {

  /** The characters `trim` removes: ECMAScript's WhiteSpace and LineTerminator sets.
      The zero-width space U+200B is deliberately not among them. */
  predicate IsTrimmable(c: char) {
    || c == '\t' || c == '\n' || c == '\U{000B}' || c == '\U{000C}' || c == '\r' || c == ' '
    || c == '\U{00A0}' || c == '\U{1680}' || ('\U{2000}' <= c <= '\U{200A}')
    || c == '\U{2028}' || c == '\U{2029}' || c == '\U{202F}' || c == '\U{205F}'
    || c == '\U{3000}' || c == '\U{FEFF}'
  }

  /** Drops the leading trimmable characters: the result is the longest suffix of `s`
      that does not start with one. */
  function TrimStart(s: string): (r: string)
    ensures |r| <= |s| && r == s[|s| - |r|..]
    ensures forall i {:trigger IsTrimmable(s[i])} :: 0 <= i < |s| - |r| ==> IsTrimmable(s[i])
    ensures r == [] || !IsTrimmable(r[0])
  {
    if |s| > 0 && IsTrimmable(s[0]) then
      var r := TrimStart(s[1..]);
      assert r == s[|s| - |r|..];
      assert forall i :: 1 <= i < |s| ==> s[i] == s[1..][i - 1];
      r
    else s
  }

  /** Drops the trailing trimmable characters: the result is the longest prefix of `s`
      that does not end with one. */
  function TrimEnd(s: string): (r: string)
    ensures |r| <= |s| && r == s[..|r|]
    ensures forall i {:trigger IsTrimmable(s[i])} :: |r| <= i < |s| ==> IsTrimmable(s[i])
    ensures r == [] || !IsTrimmable(r[|r| - 1])
  {
    if |s| > 0 && IsTrimmable(s[|s| - 1]) then TrimEnd(s[..|s| - 1]) else s
  }

  /** `String.prototype.trim`: the result neither starts nor ends with a trimmable
      character, a text made only of them trims to nothing, and a text already
      starting and ending with a visible character is returned unchanged. */
  function Trim(s: string): (r: string)
    ensures |r| <= |s|
    ensures r == [] || (!IsTrimmable(r[0]) && !IsTrimmable(r[|r| - 1]))
    ensures (forall i :: 0 <= i < |s| ==> IsTrimmable(s[i])) ==> r == []
    ensures s != [] && !IsTrimmable(s[0]) && !IsTrimmable(s[|s| - 1]) ==> r == s
  {
    TrimStart(TrimEnd(s))
  }

  /** What `trim` returns: the slice of `s` left after removing a run of trimmable
      characters from each end. With the boundary clause of `Trim`, the runs are maximal. */
  lemma TrimIsMiddleSlice(s: string)
    ensures exists lo, hi {:trigger s[lo..hi]} :: (
      && 0 <= lo <= hi <= |s| && Trim(s) == s[lo..hi]
      && (forall i :: 0 <= i < lo ==> IsTrimmable(s[i]))
      && (forall i :: hi <= i < |s| ==> IsTrimmable(s[i])))
  {
    var e := TrimEnd(s);
    var t := TrimStart(e);
    var lo, hi := |e| - |t|, |e|;
    assert t == e[lo..] == s[lo..hi];
    forall i | 0 <= i < lo ensures IsTrimmable(s[i]) {
      assert e[i] == s[i];
    }
  }

  /** Padding made only of trimmable characters is exactly what `TrimEnd` takes off
      a text that ends in a visible character. */
  lemma TrimEndOfPadded(x: string, pad: string)
    requires x != [] && !IsTrimmable(x[|x| - 1])
    requires forall i :: 0 <= i < |pad| ==> IsTrimmable(pad[i])
    ensures TrimEnd(x + pad) == x
  {
    var s := x + pad;
    var r := TrimEnd(s);
    assert s[|x| - 1] == x[|x| - 1];
    assert forall i :: |x| <= i < |s| ==> s[i] == pad[i - |x|];
    assert |r| == |x|;
    assert r == s[..|x|];
  }

  /** Trimming a text that ends in a visible character, padded with two spaces,
      only removes the padding and the leading blanks. */
  lemma TrimOfSpacePadded(x: string)
    requires x != [] && !IsTrimmable(x[|x| - 1])
    ensures Trim(x + "  ") == TrimStart(x)
  {
    var padded := x + "  ";
    assert forall i :: 0 <= i < |"  "| ==> IsTrimmable("  "[i]);
    TrimEndOfPadded(x, "  ");
    assert TrimEnd(padded) == x;
    assert Trim(padded) == TrimStart(TrimEnd(padded));
  }

  /** Trimming only removes characters: a character absent before is absent after. */
  lemma TrimKeepsAbsence(s: string, c: char)
    requires c !in s
    ensures c !in Trim(s)
  {
    var e := TrimEnd(s);
    AbsentFromSlice(c, s, 0, |e|);
    var t := TrimStart(e);
    AbsentFromSlice(c, e, |e| - |t|, |e|);
    assert Trim(s) == t;
  }

  /** A character absent from a text is absent from each of its slices. */
  lemma AbsentFromSlice(c: char, s: string, lo: nat, hi: nat)
    requires c !in s && lo <= hi <= |s|
    ensures c !in s[lo..hi]
  {
    forall k | 0 <= k < hi - lo ensures s[lo..hi][k] != c {
      assert s[lo..hi][k] == s[lo + k];
    }
  }

  /** A character absent from two texts is absent from their concatenation. */
  lemma AbsentFromConcat(c: char, a: string, b: string)
    requires c !in a && c !in b
    ensures c !in a + b
  {
    forall k | 0 <= k < |a + b| ensures (a + b)[k] != c {
      if k < |a| {
        assert (a + b)[k] == a[k];
      } else {
        assert (a + b)[k] == b[k - |a|];
      }
    }
  }

  /** A text that does not start with a trimmable character is left alone by `TrimStart`. */
  lemma TrimStartKeeps(s: string)
    requires s == [] || !IsTrimmable(s[0])
    ensures TrimStart(s) == s
  {
  }

  /** The `\n`-separated lines of `s`, as `s.split('\n')` returns them.
      `LinesShape` states how many there are and that none holds a line feed. */
  function Lines(s: string): (ls: seq<string>)
    ensures |ls| >= 1
  {
    if |s| == 0 then [""]
    else if s[0] == '\n' then [""] + Lines(s[1..])
    else
      var rest := Lines(s[1..]);
      [[s[0]] + rest[0]] + rest[1..]
  }

  /** A text splits into a single line exactly when it holds no line feed, and no
      line of the split holds one. */
  lemma {:induction false} LinesShape(s: string)
    ensures |Lines(s)| == 1 <==> '\n' !in s
    ensures forall i :: 0 <= i < |Lines(s)| ==> '\n' !in Lines(s)[i]
  {
    if |s| > 0 {
      var rest := Lines(s[1..]);
      LinesShape(s[1..]);
      assert forall k :: 1 <= k < |s| ==> s[k] == s[1..][k - 1];
      if s[0] != '\n' {
        var head := [s[0]] + rest[0];
        assert forall k :: 1 <= k < |head| ==> head[k] == rest[0][k - 1];
        assert '\n' !in head;
      }
    }
  }

  /** Splitting undoes joining: a line without a line feed, followed by `\n`,
      comes back as the first line. */
  lemma {:induction false} LinesAfterLine(a: string, b: string)
    requires '\n' !in a
    ensures Lines(a + "\n" + b) == [a] + Lines(b)
  {
    if |a| == 0 {
      assert a + "\n" + b == ['\n'] + b;
      assert (['\n'] + b)[1..] == b;
    } else {
      var s := a + "\n" + b;
      assert s[0] == a[0];
      assert s[1..] == a[1..] + "\n" + b;
      assert a[0] in a;
      assert '\n' !in a[1..] by {
        forall i | 0 <= i < |a[1..]| ensures a[1..][i] != '\n' {
          assert a[1..][i] == a[i + 1];
        }
      }
      LinesAfterLine(a[1..], b);
      assert [a[0]] + a[1..] == a;
    }
  }

  /** `LinesAfterLine` for a text already known to be `a`, a line feed, then `b`. */
  lemma LinesOfJoined(s: string, a: string, b: string)
    requires '\n' !in a && s == a + "\n" + b
    ensures Lines(s) == [a] + Lines(b)
  {
    LinesAfterLine(a, b);
  }

  /** Four lines, each terminated by `\n`, split back into those four lines and the
      empty remainder after the last terminator. */
  lemma LinesOfFour(a: string, b: string, c: string, d: string)
    requires '\n' !in a && '\n' !in b && '\n' !in c && '\n' !in d
    ensures Lines((a + "\n") + (b + "\n") + (c + "\n") + (d + "\n")) == [a, b, c, d, ""]
  {
    var s4 := d + "\n" + "";
    var s3 := c + "\n" + s4;
    var s2 := b + "\n" + s3;
    var s1 := a + "\n" + s2;
    assert (a + "\n") + (b + "\n") + (c + "\n") + (d + "\n") == s1;
    LinesOfJoined(s4, d, "");
    LinesOfJoined(s3, c, s4);
    LinesOfJoined(s2, b, s3);
    LinesOfJoined(s1, a, s2);
  }
}

=== FILE: timestamps.dfy ===
/**
 ISO-8601 timestamps as JavaScript's `Date.prototype.toISOString` writes them:
 `YYYY-MM-DDTHH:mm:ss.sssZ`, always in UTC. Both handlers take their run time
 from this rendering.
 */
module Timestamps {

  /** A UTC instant broken into the fields `toISOString` prints. */
  datatype Instant = Instant(year: nat, month: nat, day: nat, hour: nat, minute: nat, second: nat, millis: nat)

  /** The four-digit-year range, where `toISOString` prints no sign and no extended year. */
  predicate Valid(t: Instant) {
    && t.year <= 9999
    && 1 <= t.month <= 12
    && 1 <= t.day <= 31
    && t.hour < 24
    && t.minute < 60
    && t.second < 60
    && t.millis < 1000
  }

  function Pow10(width: nat): (p: nat)
    ensures p >= 1
  {
    if width == 0 then 1 else 10 * Pow10(width - 1)
  }

  predicate IsDigit(c: char) {
    '0' <= c <= '9'
  }

  function DigitChar(n: nat): (c: char)
    requires n < 10
    ensures IsDigit(c)
  {
    (('0' as int) + n) as char
  }

  /** The number a run of decimal digits denotes. */
  function DigitsValue(s: string): nat
    requires forall i :: 0 <= i < |s| ==> IsDigit(s[i])
  {
    if |s| == 0 then 0
    else
      assert IsDigit(s[|s| - 1]);
      10 * DigitsValue(s[..|s| - 1]) + (s[|s| - 1] as int - '0' as int)
  }

  /** `n` written in exactly `width` decimal digits, zero-padded on the left. */
  function Pad(n: nat, width: nat): (s: string)
    requires n < Pow10(width)
    ensures |s| == width
    ensures forall i :: 0 <= i < |s| ==> IsDigit(s[i])
  {
    if width == 0 then "" else Pad(n / 10, width - 1) + [DigitChar(n % 10)]
  }

  /** Reading the padded digits back gives the number that was written. */
  lemma {:induction false} PadRoundTrip(n: nat, width: nat)
    requires n < Pow10(width)
    ensures DigitsValue(Pad(n, width)) == n
  {
    if width > 0 {
      var s := Pad(n, width);
      PadRoundTrip(n / 10, width - 1);
      assert s[..|s| - 1] == Pad(n / 10, width - 1);
    }
  }

  /** The date part `YYYY-MM-DD`. */
  function IsoDate(t: Instant): (r: string)
    requires Valid(t)
    ensures |r| == 10 && r[4] == '-' && r[7] == '-'
    ensures r[..4] == Pad(t.year, 4) && r[5..7] == Pad(t.month, 2) && r[8..10] == Pad(t.day, 2)
  {
    Pad(t.year, 4) + "-" + Pad(t.month, 2) + "-" + Pad(t.day, 2)
  }

  /** The clock part `hh:mm:ss`. */
  function IsoClock(t: Instant): (r: string)
    requires Valid(t)
    ensures |r| == 8 && r[2] == ':' && r[5] == ':'
    ensures r[..2] == Pad(t.hour, 2) && r[3..5] == Pad(t.minute, 2) && r[6..8] == Pad(t.second, 2)
  {
    Pad(t.hour, 2) + ":" + Pad(t.minute, 2) + ":" + Pad(t.second, 2)
  }

  /** `toISOString` of a four-digit-year instant: 24 characters, the hour at indices 11-12. */
  function ToIsoString(t: Instant): (r: string)
    requires Valid(t)
    ensures |r| == 24
    ensures r[4] == '-' && r[7] == '-' && r[10] == 'T' && r[13] == ':' && r[16] == ':' && r[19] == '.' && r[23] == 'Z'
    ensures r[..4] == Pad(t.year, 4) && r[5..7] == Pad(t.month, 2) && r[8..10] == Pad(t.day, 2)
    ensures r[11..13] == Pad(t.hour, 2)
    ensures r[14..16] == Pad(t.minute, 2) && r[17..19] == Pad(t.second, 2) && r[20..23] == Pad(t.millis, 3)
  {
    var date, clock := IsoDate(t), IsoClock(t);
    var r := date + "T" + clock + "." + Pad(t.millis, 3) + "Z";
    assert r[..10] == date && r[11..19] == clock;
    r
  }
}

=== FILE: weather.dfy ===
/**
 The classifier of the reporting lambda (`lambdas/post-discord/postDiscord.js`):
 the provider's icon table, the condition-to-glyph table and `pogoWeather`, which
 compresses one hourly reading into one of eight game conditions.
 */
module Weather {
  import opened Text

  /** The eight condition labels. */
  datatype Condition = Clear | Rain | PartlyCloudy | Cloudy | Windy | Snow | Fog | Unknown

  /** The text the source uses for each condition; it is the key of the glyph table. */
  function Label(c: Condition): string {
    match c
    case Clear => "Clear"
    case Rain => "Rain"
    case PartlyCloudy => "Partly Cloudy"
    case Cloudy => "Cloudy"
    case Windy => "Windy"
    case Snow => "Snow"
    case Fog => "Fog"
    case Unknown => "Unknown"
  }

  /** Different conditions have different texts, so keying the glyph table by the
      condition is the same as keying it by the text. */
  lemma LabelInjective(a: Condition, b: Condition)
    requires Label(a) == Label(b)
    ensures a == b
  {
  }

  /** An entry of `weatherMap`: the condition text and the `wind` flag. */
  datatype IconEntry = IconEntry(text: Condition, wind: bool)

  /** `weatherMap`: the provider's icon codes that have a condition. */
  const WeatherMap: map<int, IconEntry> := map[
     1 := IconEntry(Clear, true),
     2 := IconEntry(Clear, true),
     3 := IconEntry(PartlyCloudy, true),
     4 := IconEntry(PartlyCloudy, true),
     5 := IconEntry(Cloudy, true),
     6 := IconEntry(Cloudy, true),
     7 := IconEntry(Cloudy, true),
     8 := IconEntry(Cloudy, true),
    11 := IconEntry(Fog, false),
    12 := IconEntry(Rain, false),
    13 := IconEntry(Cloudy, false),
    14 := IconEntry(PartlyCloudy, false),
    15 := IconEntry(Rain, false),
    16 := IconEntry(Cloudy, false),
    17 := IconEntry(PartlyCloudy, false),
    18 := IconEntry(Rain, false),
    19 := IconEntry(Snow, false),
    20 := IconEntry(Cloudy, false),
    21 := IconEntry(PartlyCloudy, false),
    22 := IconEntry(Snow, false),
    23 := IconEntry(Cloudy, false),
    24 := IconEntry(Snow, false),
    25 := IconEntry(Rain, false),
    26 := IconEntry(Rain, false),
    29 := IconEntry(Snow, false),
    32 := IconEntry(Windy, false),
    33 := IconEntry(Clear, true),
    34 := IconEntry(Clear, true),
    35 := IconEntry(PartlyCloudy, true),
    36 := IconEntry(PartlyCloudy, true),
    37 := IconEntry(Cloudy, true),
    38 := IconEntry(Cloudy, true),
    39 := IconEntry(PartlyCloudy, false),
    40 := IconEntry(Cloudy, false),
    41 := IconEntry(PartlyCloudy, false),
    42 := IconEntry(Cloudy, false),
    43 := IconEntry(Cloudy, false),
    44 := IconEntry(Cloudy, false)
  ]

  /** `pogoWeatherIcons`: one glyph per condition. */
  const PogoWeatherIcons: map<Condition, string> := map[
    Clear := "\U{2600}",
    Rain := "\U{2602}",
    PartlyCloudy := "\U{26C5}",
    Cloudy := "\U{2601}",
    Windy := "\U{1F390}",
    Snow := "\U{2603}",
    Fog := "\U{1F32B}",
    Unknown := "?"
  ]

  /** Above this combined wind (speed plus gust) every known code reads as windy. */
  const WindyLimit: real := 55.0

  /** The classification rule over any icon table: an unknown code is `Unknown`
      whatever the wind; a known code reads as `Windy` once speed plus gust exceeds
      the limit; otherwise it keeps its table text. The `wind` flag plays no part. */
  function Classify(table: map<int, IconEntry>, weatherIcon: int, windSpeed: real, windGust: real): (c: Condition)
    ensures weatherIcon !in table ==> c == Unknown
    ensures weatherIcon in table && windSpeed + windGust > WindyLimit ==> c == Windy
    ensures weatherIcon in table && windSpeed + windGust <= WindyLimit ==> c == table[weatherIcon].text
  {
    if weatherIcon !in table then Unknown
    else if windSpeed + windGust > WindyLimit then Windy
    else table[weatherIcon].text
  }

  /** `pogoWeather` of a stored reading. */
  function PogoWeather(weatherIcon: int, windSpeed: real, windGust: real): Condition {
    Classify(WeatherMap, weatherIcon, windSpeed, windGust)
  }

  /** The codes `weatherMap` knows: 1-8, 11-26, 29 and 32-44. */
  lemma KnownCodes(code: int)
    ensures code in WeatherMap <==> 1 <= code <= 8 || 11 <= code <= 26 || code == 29 || 32 <= code <= 44
  {
  }

  /** No table entry reads `Unknown`, and `Windy` is the text of code 32 alone. */
  lemma TableTexts(code: int)
    requires code in WeatherMap
    ensures WeatherMap[code].text != Unknown
    ensures WeatherMap[code].text == Windy <==> code == 32
  {
  }

  /** A reading is `Unknown` exactly when its code is missing from the table. */
  lemma UnknownExactlyWhenCodeMissing(weatherIcon: int, windSpeed: real, windGust: real)
    ensures PogoWeather(weatherIcon, windSpeed, windGust) == Unknown <==> weatherIcon !in WeatherMap
  {
    if weatherIcon in WeatherMap {
      TableTexts(weatherIcon);
    }
  }

  /** A reading is `Windy` exactly when its code is known and either the combined wind
      exceeds the limit or the code is 32, the table's own windy code. */
  lemma WindyExactly(weatherIcon: int, windSpeed: real, windGust: real)
    ensures PogoWeather(weatherIcon, windSpeed, windGust) == Windy
        <==> weatherIcon in WeatherMap && (windSpeed + windGust > WindyLimit || weatherIcon == 32)
  {
    if weatherIcon in WeatherMap {
      TableTexts(weatherIcon);
    }
  }

  /** The `wind` flags are never read: a table with the same texts and any flags
      classifies every reading the same way. */
  lemma WindFlagIgnored(table: map<int, IconEntry>, weatherIcon: int, windSpeed: real, windGust: real)
    requires table.Keys == WeatherMap.Keys
    requires forall k :: k in table ==> table[k].text == WeatherMap[k].text
    ensures Classify(table, weatherIcon, windSpeed, windGust) == PogoWeather(weatherIcon, windSpeed, windGust)
  {
  }

  /** Every condition, hence every classifier output, has a glyph, and no glyph is
      empty, blank or a line break. */
  lemma GlyphForEveryCondition(c: Condition)
    ensures c in PogoWeatherIcons
    ensures |PogoWeatherIcons[c]| == 1
    ensures PogoWeatherIcons[c][0] != '\n' && !IsTrimmable(PogoWeatherIcons[c][0])
  {
  }
}

=== FILE: wrappers.dfy ===
/** `Option` and `Result`, shared by both pipelines. */
module Wrappers {

  /** A value that may be absent: JavaScript's `null`/`undefined` slots. */
  datatype Option<+T> = None | Some(value: T)

  /** The outcome of a call into an external collaborator. */
  datatype Result<+R, +E> = Success(value: R) | Failure(error: E)
}
